=== FILE: README.md ===
# Room booking: conflict rules and availability search

A model, in Dafny, of the core of a meeting-room booking backend (a Django
REST Framework service). The model covers:

- the booking conflict rules, which exist twice. `Booking.clean` runs on every
  `save`, and `BookingSerializer.validate` runs on every create and update
  request whose fields pass the framework's field checks;
- the room-availability query `Room.is_available` and the room list built on
  it: `RoomViewSet.get_queryset`, the `RoomFilter` filter set and the detail
  serializer's `is_available` field;
- the positive-floor and positive-capacity rule for room data;
- the two permission classes;
- the booking visibility rule and the create, update and destroy requests
  that go through it.

Times of day are minutes after midnight and dates are day numbers. "Today"
is a parameter. The bookings table is a map from primary key to booking,
paired with the next value of its id sequence (`Domain.Db`). Room querysets
are sequences of room rows in queryset order. Every operation is side-effect
free: the table after a write is part of the result. A refused operation returns an `Err`:

- `Invalid(field, message)` is a raised `ValidationError`. It carries the
  field tag (`date`, `end_time`, `non_field_errors`, `floor`, `capacity`)
  and the message the source raises.
- `Required` is the framework's required-field refusal, for a create or a
  full (PUT) update that lacks a writable field.
- `NotFound` is a lookup that failed.
- `Unhandled(e)` is a refusal `e` raised by `Booking.clean` inside `save`
  after the serializer accepted the data. The framework's exception handler
  does not convert a Django `ValidationError`, so the request fails as a
  server error, not as a field-tagged client error.

The overlap test is the strict one, `existing.start < new.end &&
existing.end > new.start`. So a booking ending at 11:00 and one starting at
11:00 do not conflict. `Room.is_available` is a function of the table, so
two calls with no write between them give the same answer.

The central property is `BookingViews.RunKeepsValid`. After any sequence of
create, update and destroy requests, handled one at a time, three things
hold:

- every booking ends after it starts;
- no two distinct bookings on the same date overlap while sharing a room;
- no two distinct bookings on the same date overlap while sharing a user.

Behaviour worth knowing, modelled as written:

- The serializer's user-overlap scan is keyed on the requesting user, not on
  the booking's owner. A staff member editing someone else's booking can be
  refused because of the staff member's own bookings, even though the
  model's `clean`, keyed on the owner, accepts the result
  (`BookingSerializer.UserCheckKeyedOnRequester`). When the requester owns
  the booking, the two copies of the rules agree
  (`BookingSerializer.ValidateAgreesWithClean`).
- The room list runs `get_queryset` and then the `RoomFilter` filter set,
  which applies the same conditions again and so removes nothing
  (`RoomViews.List`).
- Python truthiness: dates, times and model instances are always truthy.
  Query-string parameters are falsy only when missing or empty. An
  auto-increment pk starts at 1. So "present" is `Some` throughout.
- The bookings table enforces only the `end_time > start_time` check
  constraint. No storage constraint prevents overlapping bookings; the
  rules in `clean` and in the serializer are all that do.
- The rules exist in two copies, `Booking.clean` and
  `BookingSerializer.validate`. Both are modelled. `validate` runs its
  overlap scans only when room, date, start and end are all in the request,
  so any partial update (PATCH) that omits one of them skips them; and it
  checks the date and the time order only on the fields sent. A clash, an
  out-of-order time pair or a stored past date in the updated booking is
  then caught only by `clean` inside `save`, which ends as a server error
  (`BookingViews.PartialSkipsOverlapScans`,
  `BookingViews.PartialRoomMoveEscapes`,
  `BookingViews.PartialEndBeforeStartEscapes`). A staff edit whose owner
  holds a clashing booking takes the same path, because the serializer's
  user scan is keyed on the staff member
  (`BookingViews.StaffEditOwnerClashEscapes`).
- The room detail endpoint looks the room up in the filtered list, so with a
  full slot in the query a booked room is not found, and `is_available` is
  never false in a response (`RoomViews.Retrieve`).

## Model

| member | source | states |
|---|---|---|
| Domain.Overlapping | bookings/models.py:81-86 | the overlap query (key, date, strict interval test, optional excluded pk) is empty exactly when no other stored booking clashes with the slot |
| Domain.OverlapSymmetric | bookings/models.py:84-85 | the strict overlap test gives the same answer whichever of the two bookings is the stored one |
| Domain.Keep | rooms/views.py:53-67 | a queryset filter keeps exactly the rows of the input that satisfy the condition and adds none |
| Domain.RemoveKeepsValid | bookings/views.py:80-82 | deleting a row keeps the table free of double bookings and of bookings with end not after start |
| RoomModel.IsAvailable | rooms/models.py:28-53 | a room is available for a slot on a date iff no booking of that room on that date has start < slot end and end > slot start |
| RoomModel.EmptyRoomIsAvailable | rooms/models.py:43-53 | with no bookings for the room on that date every slot is available |
| RoomModel.OtherBookingsIrrelevant | rooms/models.py:43-46 | adding a booking for another room or another date never changes the availability answer |
| RoomModel.OverlappedSlotUnavailable | rooms/models.py:47-50 | a slot that contains a booking, lies inside it, or overlaps either of its ends is unavailable |
| RoomModel.BackToBackIsAvailable | rooms/models.py:47-51 | a slot that only touches the room's single booking at its start or end is available |
| RoomModel.WithFloor | rooms/views.py:53-54 | the floor filter keeps exactly the rooms whose floor equals the parameter |
| RoomModel.WithMinCapacity | rooms/views.py:57-58 | the capacity filter keeps exactly the rooms whose capacity is at least the parameter |
| RoomModel.AvailableAmong | rooms/views.py:61-67 | the availability step keeps exactly the rooms of the queryset that are available for the slot |
| RoomFilters.FilterIgnored | rooms/filters.py:26-39 | the start_time and end_time filters return the queryset unchanged |
| RoomFilters.FilterAvailability | rooms/filters.py:41-67 | with the date, start or end missing the queryset comes back unchanged; otherwise exactly its available rooms; always a subset of the input |
| RoomFilters.FilterQueryset | rooms/filters.py:16-20 | the filter set keeps exactly the rooms with the given floor (exact), capacity at least the given one (gte) and, with a full slot, availability |
| RoomSerializers.Validate | rooms/serializers.py:15-32 | data passes iff floor and capacity are present and positive; a missing or non-positive floor is a floor error, checked before capacity; valid data is returned unchanged |
| RoomSerializers.GetIsAvailable | rooms/serializers.py:44-65 | true without a request, without query parameters or without a full slot; otherwise false exactly when a booking of the room overlaps the slot |
| RoomViews.GetQueryset | rooms/views.py:39-69 | the list keeps exactly the rooms matching the floor, the minimum capacity and, when date, start and end are all given, availability; never more rows than the table |
| RoomViews.AvailableRoomIds | rooms/views.py:61-65 | the loop collects exactly the ids of the rooms of the queryset that are available |
| RoomViews.AvailableIdsSelectAvailableRooms | rooms/views.py:67 | filtering the queryset by the collected ids gives exactly the available rooms |
| RoomViews.List | rooms/views.py:24-27 | the filter set run after get_queryset removes nothing: the list is the get_queryset result |
| RoomViews.NoParamsListsEveryRoom | rooms/views.py:43-69 | with no parameters every room is listed |
| RoomViews.DeletingBlockerRestoresRoom | rooms/views.py:61-67 | a room blocked by one booking is absent from the availability listing and reappears once that booking is deleted |
| RoomViews.DetailAgreesWithListing | rooms/serializers.py:58-65 | for a full slot and a room of the table, the detail serializer's is_available is true iff the room is in the availability listing |
| RoomViews.FindById | rooms/views.py:39-69 | the primary-key lookup in a queryset finds a room iff one with that id is in it, and returns that row |
| RoomViews.Retrieve | rooms/views.py:31-69 | the detail endpoint finds a room iff its id is in the filtered list, otherwise not-found; every room it returns carries is_available true |
| RoomViews.BookedRoomDetailNotFound | rooms/views.py:61-67 | with a full slot, a room booked for it is not found by the detail endpoint |
| Permissions.HasPermission | core/permissions.py:11-17 | safe methods are always allowed; any other method iff the user is staff |
| Permissions.HasObjectPermission | core/permissions.py:25-34 | staff always; otherwise iff the object has an owner and it is the requesting user; objects without an owner are refused to non-staff |
| BookingModel.ValidateRoomAvailability | bookings/models.py:77-98 | passes iff no other booking of the same room and date overlaps; the booking's own pk is excluded when present; the failure is the room message under non_field_errors |
| BookingModel.ValidateUserAvailability | bookings/models.py:100-121 | passes iff no other booking of the same user and date overlaps, in any room; the booking's own pk is excluded when present; the failure is the user message |
| BookingModel.Clean | bookings/models.py:51-75 | passes iff date is not before today, end is after start, and there is no room clash and no user clash; otherwise the first broken rule in that order is reported |
| BookingModel.Save | bookings/models.py:123-126 | a row is written iff clean passes; a stored row always has end after start; an insert takes the next sequence id and advances the sequence by one, an update keeps its pk and leaves the sequence alone, and no other row changes |
| BookingModel.SaveKeepsValid | bookings/models.py:51-126 | a successful save of a new or stored booking keeps the table free of room and user double bookings and of rows with end not after start |
| BookingModel.ResaveUnchangedPasses | bookings/models.py:80-86 | re-saving a stored booking unchanged, dated today or later, never conflicts with itself |
| BookingModel.SelfConflictWithoutExclusion | bookings/models.py:88-93 | the same booking validated without its pk is refused as a room conflict with its own row |
| BookingModel.BackToBackAccepted | bookings/models.py:77-98 | with 10:00-11:00 booked, 11:00-12:00 in the same room is accepted |
| BookingModel.StrictOverlapRejected | bookings/models.py:95-98 | with 10:00-11:00 booked, 10:30-11:30 in the same room is a room conflict |
| BookingModel.CrossRoomUserConflict | bookings/models.py:118-121 | with 10:00-11:00 booked, the same user booking 10:30-11:30 in another room is a user conflict |
| BookingModel.PastDateRejected | bookings/models.py:59-63 | a date before today is refused with the date error whatever the times |
| BookingSerializer.IsRoomAvailable | bookings/serializers.py:87-114 | true iff no booking of the room on the date other than the instance overlaps the slot |
| BookingSerializer.IsUserAvailable | bookings/serializers.py:116-143 | true iff no booking of the user on the date other than the instance overlaps the slot, in any room |
| BookingSerializer.Validate | bookings/serializers.py:44-85 | a present past date is the date error first; present out-of-order times are the end_time error next; the overlap scans run only when room, date, start and end are all present, keyed on the requester; success returns the data unchanged |
| BookingSerializer.Create | bookings/serializers.py:145-162 | the saved booking belongs to the requesting user and carries the validated fields under the next id; the table gains exactly that row, no other row changes and the sequence advances by one; it succeeds iff clean passes |
| BookingSerializer.Update | bookings/serializers.py:164-183 | the present fields overwrite the stored booking's, the owner, the id and every other row are unchanged, and it succeeds iff clean passes with the pk excluded |
| BookingSerializer.ValidateAgreesWithClean | bookings/serializers.py:63-83 | when the requester owns the booking, the serializer on complete data accepts iff clean does, and refuses with the same error |
| BookingSerializer.RoomScanIsAvailabilityOnCreate | bookings/serializers.py:87-114 | with no instance to exclude, the serializer's room scan gives the same answer as the room's is_available |
| BookingSerializer.UserCheckKeyedOnRequester | bookings/serializers.py:79-83 | a staff member editing another user's booking is refused for the staff member's own overlap, which clean accepts |
| BookingViews.VisibleBookings | bookings/views.py:31-46 | empty during schema generation; all bookings for staff; exactly the user's own bookings otherwise; entries are the stored ones |
| BookingViews.VisibleBookingsArePermitted | bookings/views.py:41-46 | every visible booking passes the owner-or-admin object check |
| BookingViews.GetObject | bookings/views.py:69 | the lookup succeeds iff the booking exists and the user is staff or its owner; any failure is not-found |
| BookingViews.Create | bookings/views.py:48-62 | a create lacking a field is the required-field error; otherwise it succeeds iff clean passes for the booking owned by the requester, stored under the next id with the sequence advanced by one; a refusal is clean's error and never a server error |
| BookingViews.Update | bookings/views.py:64-74 | not-found unless the booking exists and the user is staff or owner; a PUT lacking a field is the required-field error; it succeeds iff validate accepts the data and clean accepts the instance with the present fields overwritten; a validate refusal is reported as such, a clean refusal after validate passed is a server error; on success only that row changes |
| BookingViews.PartialEndBeforeStartEscapes | bookings/views.py:68-72 | a PATCH moving only the end time before the stored start passes validate and ends as a server error from save |
| BookingViews.PartialSkipsOverlapScans | bookings/serializers.py:62-68 | a PATCH omitting one of room, date, start and end passes validate once its date and time rules pass; it then succeeds iff clean accepts the updated booking, and clean's refusal becomes a server error |
| BookingViews.PartialRoomMoveEscapes | bookings/serializers.py:62-68 | a PATCH carrying only a room already taken for the booking's slot passes validate and ends as a server error with the room conflict |
| BookingViews.StaffEditOwnerClashEscapes | bookings/serializers.py:79-83 | a staff edit that clashes with the owner's other booking passes validate and ends as a server error from save |
| BookingViews.FullUpdateNeedsEveryField | bookings/views.py:68-71 | a PUT without the room is refused with the required-field error and leaves the table unchanged |
| BookingViews.Destroy | bookings/views.py:76-82 | for staff or the owner exactly that row is removed; anyone else gets not-found |
| BookingViews.HandleKeepsValid | bookings/views.py:48-82 | any single create, update or destroy request keeps the table free of double bookings |
| BookingViews.RunKeepsValid | bookings/models.py:123-126 | after any sequence of requests no two distinct bookings overlap on the same room and date or the same user and date, and every booking ends after it starts |
| BookingViews.RunFromEmptyIsValid | bookings/views.py:48-82 | every table reachable from an empty one is free of double bookings |
| BookingViews.SecondOverlappingCreateRejected | bookings/serializers.py:68-76 | of two creates for overlapping slots of one room, handled in turn, the second is refused as a room conflict once the first succeeds |
| BookingViews.StrangerCannotTouch | bookings/views.py:64-82 | a non-staff non-owner's update or destroy leaves the table unchanged |
| BookingViews.BookThenDeleteScenario | rooms/models.py:43-53 | after booking 10:00-11:00 that slot is unavailable and 14:00-15:00 is free; deleting the booking frees 10:00-11:00 again |

## Left out

- Concurrency and `transaction.atomic`: each request is one sequential step, so the race between validation and write is not modelled. The table has no overlap constraint that would catch such a race.
- `timezone.now()` is the `today` parameter. Parsing of date and time strings from query parameters and request bodies is not modelled: they are integers here, and an empty parameter counts as missing.
- BookingModel.SaveKeepsValid: covers saves of new instances and of instances read back from the table. Those are the only saves the views perform. A save with an invented pk is not covered.
- Framework field validation is not modelled: a `room_id` naming no room, and non-date or non-time values.
- The `IsAuthenticated` permission and authentication itself. The requesting user is always an authenticated `Principal` in the booking views.
- Room create, update and delete beyond the floor and capacity rule. These are the framework's default handlers. Deleting a room also cascades to its bookings, which is not modelled.
- The search filter, the ordering filters, pagination, and response bodies and status codes: framework configuration.
- The booking view's `date` and `room` filter fields. They also narrow the lookup of update and destroy, so `?room=` or `?date=` on a booking's URL can turn a visible booking into not-found. The model's lookup takes no query parameters.
- `created_at`, `updated_at`, `__str__`, `Meta.ordering` and the indexes: these carry no behaviour the rules depend on.
- RoomSerializers.Validate: models the `validate` method only. The serializer copies the Room model's `MinValueValidator(1)` into the floor and capacity fields, so a present value below 1 is refused by field validation before `validate` runs, with both field errors reported together. That field-level step is not modelled.
- The users app, the API schema module, the admin modules and the migrations: outside the booking and availability core.

=== FILE: booking_model.dfy ===
/** The Booking model: the four validation rules of `clean`, in their order,
    and `save`, which runs them before writing the row. */
module BookingModel {
  import opened Results
  import opened Domain

  const PastDate := Invalid(DateField, "Booking date cannot be in the past.")
  const EndNotAfterStart := Invalid(EndTimeField, "End time must be after start time.")
  const RoomTaken := Invalid(NonFieldErrors, "This room is already booked during the requested time slot.")
  const UserTaken := Invalid(NonFieldErrors, "You already have another booking during this time slot.")

  /** A candidate booking that breaks none of the four rules; `pk` is the
      candidate's own id when it is already stored. */
  ghost predicate Admissible(store: Store, today: Date, pk: Option<BookingId>, b: Booking) {
    && b.date >= today
    && b.end > b.start
    && !Clash(store, ByRoom(b.room), b.date, b.start, b.end, pk)
    && !Clash(store, ByUser(b.user), b.date, b.start, b.end, pk)
  }

  /** `_validate_room_availability`: a saved instance (`pk` present) is left
      out of the scan, a new one is not. */
  function ValidateRoomAvailability(store: Store, pk: Option<BookingId>, b: Booking): (r: Check)
    ensures r.Pass? <==> !Clash(store, ByRoom(b.room), b.date, b.start, b.end, pk)
    ensures r.Fail? ==> r.error == RoomTaken
  {
    if Overlapping(store, ByRoom(b.room), b.date, b.start, b.end, pk) != {} then Fail(RoomTaken) else Pass
  }

  /** `_validate_user_availability`: the same scan keyed on the booking's owner,
      whatever room the other bookings are for. */
  function ValidateUserAvailability(store: Store, pk: Option<BookingId>, b: Booking): (r: Check)
    ensures r.Pass? <==> !Clash(store, ByUser(b.user), b.date, b.start, b.end, pk)
    ensures r.Fail? ==> r.error == UserTaken
  {
    if Overlapping(store, ByUser(b.user), b.date, b.start, b.end, pk) != {} then Fail(UserTaken) else Pass
  }

  /** `Booking.clean`: the first rule broken, in the order date, end time,
      room, user, is the one reported. */
  function Clean(store: Store, today: Date, pk: Option<BookingId>, b: Booking): (r: Check)
    ensures r.Pass? <==> Admissible(store, today, pk, b)
    ensures b.date < today ==> r == Fail(PastDate)
    ensures b.date >= today && b.end <= b.start ==> r == Fail(EndNotAfterStart)
    ensures b.date >= today && b.end > b.start && Clash(store, ByRoom(b.room), b.date, b.start, b.end, pk)
            ==> r == Fail(RoomTaken)
    ensures && b.date >= today && b.end > b.start
            && !Clash(store, ByRoom(b.room), b.date, b.start, b.end, pk)
            && Clash(store, ByUser(b.user), b.date, b.start, b.end, pk)
            ==> r == Fail(UserTaken)
  {
    if b.date < today then Fail(PastDate)
    else if b.end <= b.start then Fail(EndNotAfterStart)
    else
      match ValidateRoomAvailability(store, pk, b)
      case Fail(e) => Fail(e)
      case Pass => ValidateUserAvailability(store, pk, b)
  }

  /** The row written by a successful save and its primary key. */
  datatype Saved = Saved(db: Db, id: BookingId)

  /** `Booking.save`: `clean` first, then the insert (no pk: the next id of the
      sequence) or the update (pk present), subject to the table's check
      constraint. */
  function Save(db: Db, today: Date, pk: Option<BookingId>, b: Booking): (r: Result<Saved>)
    ensures r.Ok? <==> Admissible(db.bookings, today, pk, b)
    ensures r.Err? ==> Clean(db.bookings, today, pk, b) == Fail(r.error)
    ensures r.Ok? ==> EndAfterStart(b)
    ensures r.Ok? ==> r.value.db.bookings == db.bookings[r.value.id := b]
    ensures r.Ok? && pk.Some? ==> r.value.id == pk.value
    ensures r.Ok? && pk.None? ==> r.value.id == db.nextId
    ensures r.Ok? && pk.None? ==> r.value.db.nextId == db.nextId + 1
    ensures r.Ok? && pk.Some? ==> r.value.db.nextId == db.nextId
  {
    match Clean(db.bookings, today, pk, b)
    case Fail(e) => Err(e)
    case Pass =>
      if !EndAfterStart(b) then Err(IntegrityError)
      else if pk.Some? then Ok(Saved(Db(db.bookings[pk.value := b], db.nextId), pk.value))
      else Ok(Saved(Db(db.bookings[db.nextId := b], db.nextId + 1), db.nextId))
  }

  /** A successful save of a new booking, or of one read back from the table,
      keeps the table free of double bookings. */
  lemma SaveKeepsValid(db: Db, today: Date, pk: Option<BookingId>, b: Booking)
    requires Valid(db)
    requires pk.None? || pk.value in db.bookings
    ensures Save(db, today, pk, b).Ok? ==> Valid(Save(db, today, pk, b).value.db)
  {
  }

  /** Re-saving a stored booking unchanged never conflicts with itself: its own
      row is excluded and the table holds no other overlap. */
  lemma ResaveUnchangedPasses(db: Db, today: Date, pk: BookingId)
    requires Valid(db)
    requires pk in db.bookings && db.bookings[pk].date >= today
    ensures Clean(db.bookings, today, Some(pk), db.bookings[pk]) == Pass
  {
  }

  /** Without the exclusion the same scan would refuse every re-save of a
      stored booking as a room conflict with itself. */
  lemma SelfConflictWithoutExclusion(store: Store, today: Date, pk: BookingId)
    requires pk in store && store[pk].date >= today && EndAfterStart(store[pk])
    ensures Clean(store, today, None, store[pk]) == Fail(RoomTaken)
  {
  }

  /** Room R holds 10:00-11:00 on day D (times in minutes). */
  function OneBooking(r: RoomId, u: UserId, d: Date): Store {
    map[1 := Booking(u, r, d, 600, 660)]
  }

  /** A booking of the same room from 11:00 to 12:00 is accepted. */
  lemma BackToBackAccepted(r: RoomId, u: UserId, v: UserId, d: Date, today: Date)
    requires today <= d
    ensures Clean(OneBooking(r, u, d), today, None, Booking(v, r, d, 660, 720)) == Pass
  {
  }

  /** A booking of the same room from 10:30 to 11:30 is a room conflict. */
  lemma StrictOverlapRejected(r: RoomId, u: UserId, v: UserId, d: Date, today: Date)
    requires today <= d
    ensures Clean(OneBooking(r, u, d), today, None, Booking(v, r, d, 630, 690)) == Fail(RoomTaken)
  {
    var s := OneBooking(r, u, d);
    assert 1 in s && Some(1) != None && HeldBy(s[1], ByRoom(r));
  }

  /** The same user booking another room from 10:30 to 11:30 is a user conflict. */
  lemma CrossRoomUserConflict(r: RoomId, other: RoomId, u: UserId, d: Date, today: Date)
    requires today <= d && other != r
    ensures Clean(OneBooking(r, u, d), today, None, Booking(u, other, d, 630, 690)) == Fail(UserTaken)
  {
    var s := OneBooking(r, u, d);
    assert 1 in s && Some(1) != None && HeldBy(s[1], ByUser(u));
  }

  /** A date before today is refused whatever the times are. */
  lemma PastDateRejected(db: Db, today: Date, pk: Option<BookingId>, b: Booking)
    requires b.date < today
    ensures Save(db, today, pk, b) == Err(PastDate)
  {
  }
}

=== FILE: booking_serializer.dfy ===
/** `BookingSerializer`: the request-layer copy of the booking rules, and the
    create and update steps that hand validated data to the model. */
module BookingSerializer {
  import opened Results
  import opened Domain
  import opened BookingModel
  import RoomModel

  /** The writable fields present in the request data; `None` for an absent
      field. Dates, times and rooms are never falsy, so present means `Some`. */
  datatype BookingData = BookingData(room: Option<RoomId>, date: Option<Date>, start: Option<Time>, end: Option<Time>)
  {
    /** `all([room, date, start_time, end_time])` */
    predicate Complete() {
      room.Some? && date.Some? && start.Some? && end.Some?
    }
  }

  /** The booking `data` describes, owned by `user`. */
  function Candidate(user: UserId, data: BookingData): Booking
    requires data.Complete()
  {
    Booking(user, data.room.value, data.date.value, data.start.value, data.end.value)
  }

  /** `_is_room_available`: no booking of the room other than `instance`
      overlaps the slot on that date. */
  function IsRoomAvailable(store: Store, room: RoomId, date: Date, start: Time, end: Time, instance: Option<BookingId>): (r: bool)
    ensures r <==> forall id :: id in store && Some(id) != instance && store[id].room == room && store[id].date == date
                                ==> !(store[id].start < end && store[id].end > start)
  {
    Overlapping(store, ByRoom(room), date, start, end, instance) == {}
  }

  /** `_is_user_available`: no booking of the user other than `instance`, in
      any room, overlaps the slot on that date. */
  function IsUserAvailable(store: Store, user: UserId, date: Date, start: Time, end: Time, instance: Option<BookingId>): (r: bool)
    ensures r <==> forall id :: id in store && Some(id) != instance && store[id].user == user && store[id].date == date
                                ==> !(store[id].start < end && store[id].end > start)
  {
    Overlapping(store, ByUser(user), date, start, end, instance) == {}
  }

  /** The date rule fires on a present date in the past. */
  predicate PastDatePresent(data: BookingData, today: Date) {
    data.date.Some? && data.date.value < today
  }

  /** The end-time rule fires when both times are present and out of order. */
  predicate TimesOutOfOrder(data: BookingData) {
    data.start.Some? && data.end.Some? && data.end.value <= data.start.value
  }

  /** `BookingSerializer.validate`. Each rule runs only when its fields are
      present; the overlap scans need all four, and the user scan is keyed on
      `requester`, the user making the request, not the booking's owner. */
  function Validate(store: Store, today: Date, requester: UserId, instance: Option<BookingId>, data: BookingData): (r: Result<BookingData>)
    ensures r.Ok? ==> r.value == data
    ensures PastDatePresent(data, today) ==> r == Err(PastDate)
    ensures !PastDatePresent(data, today) && TimesOutOfOrder(data) ==> r == Err(EndNotAfterStart)
    ensures !data.Complete() ==> (r.Ok? <==> !PastDatePresent(data, today) && !TimesOutOfOrder(data))
    ensures data.Complete() ==> (r.Ok? <==> Admissible(store, today, instance, Candidate(requester, data)))
    ensures data.Complete() && r.Err? ==> Clean(store, today, instance, Candidate(requester, data)) == Fail(r.error)
  {
    if PastDatePresent(data, today) then Err(PastDate)
    else if TimesOutOfOrder(data) then Err(EndNotAfterStart)
    else if data.Complete() then
      if !IsRoomAvailable(store, data.room.value, data.date.value, data.start.value, data.end.value, instance) then
        Err(RoomTaken)
      else if !IsUserAvailable(store, requester, data.date.value, data.start.value, data.end.value, instance) then
        Err(UserTaken)
      else Ok(data)
    else Ok(data)
  }

  /** `BookingSerializer.create`: the requester becomes the owner and the row
      goes through `save`. */
  function Create(db: Db, today: Date, requester: UserId, validated: BookingData): (r: Result<Saved>)
    requires validated.Complete()
    ensures r.Ok? <==> Admissible(db.bookings, today, None, Candidate(requester, validated))
    ensures r.Ok? ==> r.value.id == db.nextId
    ensures r.Ok? ==> r.value.db == Db(db.bookings[db.nextId := Candidate(requester, validated)], db.nextId + 1)
    ensures r.Ok? ==> r.value.id in r.value.db.bookings
    ensures r.Ok? ==> var b := r.value.db.bookings[r.value.id];
                      && b.user == requester && b.room == validated.room.value && b.date == validated.date.value
                      && b.start == validated.start.value && b.end == validated.end.value
  {
    Save(db, today, None, Candidate(requester, validated))
  }

  /** The `setattr` loop of `update`: the present fields overwrite the instance's. */
  function Apply(b: Booking, data: BookingData): Booking {
    Booking(b.user,
            if data.room.Some? then data.room.value else b.room,
            if data.date.Some? then data.date.value else b.date,
            if data.start.Some? then data.start.value else b.start,
            if data.end.Some? then data.end.value else b.end)
  }

  /** `BookingSerializer.update`: overwrite the present fields of the stored
      booking `pk` and save it under the same id. */
  function Update(db: Db, today: Date, pk: BookingId, validated: BookingData): (r: Result<Saved>)
    requires pk in db.bookings
    ensures r.Ok? <==> Admissible(db.bookings, today, Some(pk), Apply(db.bookings[pk], validated))
    ensures r.Ok? ==> r.value.id == pk && r.value.db.nextId == db.nextId
    ensures r.Ok? ==> r.value.db.bookings.Keys == db.bookings.Keys
    ensures r.Ok? ==> forall id :: id in db.bookings && id != pk ==> r.value.db.bookings[id] == db.bookings[id]
    ensures r.Ok? ==> var o, n := db.bookings[pk], r.value.db.bookings[pk];
                      && n.user == o.user
                      && (validated.room.Some? ==> n.room == validated.room.value) && (validated.room.None? ==> n.room == o.room)
                      && (validated.date.Some? ==> n.date == validated.date.value) && (validated.date.None? ==> n.date == o.date)
                      && (validated.start.Some? ==> n.start == validated.start.value) && (validated.start.None? ==> n.start == o.start)
                      && (validated.end.Some? ==> n.end == validated.end.value) && (validated.end.None? ==> n.end == o.end)
  {
    Save(db, today, Some(pk), Apply(db.bookings[pk], validated))
  }

  /** When the requester owns the booking, the serializer's rules on complete
      data reach the same verdict as the model's `clean`. */
  lemma ValidateAgreesWithClean(store: Store, today: Date, instance: Option<BookingId>, b: Booking)
    ensures var data := BookingData(Some(b.room), Some(b.date), Some(b.start), Some(b.end));
            && (Validate(store, today, b.user, instance, data).Ok? <==> Clean(store, today, instance, b).Pass?)
            && (Validate(store, today, b.user, instance, data).Err? ==>
                  Clean(store, today, instance, b) == Fail(Validate(store, today, b.user, instance, data).error))
  {
  }

  /** The user scan is keyed on the requester: a staff member (user 2) who holds
      10:00-11:00 in room 1 is refused when moving user 1's booking in room 2
      to 10:30-11:30, although the model's `clean`, keyed on the owner, accepts
      the moved booking. */
  lemma UserCheckKeyedOnRequester(today: Date)
    ensures var store := map[1 := Booking(2, 1, today, 600, 660), 2 := Booking(1, 2, today, 780, 840)];
            var data := BookingData(Some(2), Some(today), Some(630), Some(690));
            && Validate(store, today, 2, Some(2), data) == Err(UserTaken)
            && Clean(store, today, Some(2), Apply(store[2], data)) == Pass
  {
    var store := map[1 := Booking(2, 1, today, 600, 660), 2 := Booking(1, 2, today, 780, 840)];
    var data := BookingData(Some(2), Some(today), Some(630), Some(690));
    assert forall id :: id in store ==> id == 1 || id == 2;
    assert 1 in store && Some(1) != Some(2) && HeldBy(store[1], ByUser(2));
  }

  /** On a create there is no instance to exclude, and the serializer's room
      scan is `Room.is_available`. */
  lemma RoomScanIsAvailabilityOnCreate(store: Store, room: RoomId, date: Date, start: Time, end: Time)
    ensures IsRoomAvailable(store, room, date, start, end, None) == RoomModel.IsAvailable(store, room, date, start, end)
  {
  }
}

=== FILE: booking_views.dfy ===
/** `BookingViewSet`: which bookings a user can see, the create, update and
    destroy requests built on that, and the invariant every sequence of
    requests keeps. */
module BookingViews {
  import opened Results
  import opened Domain
  import opened Permissions
  import opened BookingModel
  import opened RoomModel
  import S = BookingSerializer

  /** `BookingViewSet.get_queryset`: nothing while the API schema is generated,
      everything for staff, and a user's own bookings for everyone else. */
  function VisibleBookings(store: Store, viewer: Principal, schemaGeneration: bool): (r: Store)
    ensures schemaGeneration ==> r == map[]
    ensures !schemaGeneration && viewer.isStaff ==> r == store
    ensures !schemaGeneration && !viewer.isStaff ==>
              forall id :: id in r <==> id in store && store[id].user == viewer.id
    ensures forall id :: id in r ==> id in store && r[id] == store[id]
  {
    if schemaGeneration then map[]
    else if viewer.isStaff then store
    else map id | id in store && store[id].user == viewer.id :: store[id]
  }

  /** Every booking a user can see passes the `IsOwnerOrAdmin` object check. */
  lemma VisibleBookingsArePermitted(store: Store, viewer: Principal)
    ensures forall id :: id in VisibleBookings(store, viewer, false) ==>
              HasObjectPermission(Some(viewer), OwnedBy(store[id].user))
  {
  }

  /** The booking `pk` exists and `viewer` may reach it: staff, or its owner. */
  predicate Reachable(store: Store, viewer: Principal, pk: BookingId) {
    pk in store && (viewer.isStaff || store[pk].user == viewer.id)
  }

  /** `get_object`: look `pk` up in the visible bookings, then run the object
      permission check. A booking the user cannot see is not found, and the
      permission check never refuses one the user can see. */
  function GetObject(store: Store, viewer: Principal, pk: BookingId): (r: Result<Booking>)
    ensures r.Ok? <==> Reachable(store, viewer, pk)
    ensures r.Ok? ==> r.value == store[pk]
    ensures r.Err? ==> r.error == NotFound
  {
    var visible := VisibleBookings(store, viewer, false);
    if pk !in visible then Err(NotFound)
    else if !HasObjectPermission(Some(viewer), OwnedBy(visible[pk].user)) then Err(PermissionDenied)
    else Ok(visible[pk])
  }

  /** A refusal raised by `save` after the serializer accepted the data: the
      framework's exception handler lets the Django `ValidationError` through. */
  function Escalate(r: Result<Saved>): (e: Result<Saved>)
    ensures r.Ok? ==> e == r
    ensures r.Err? ==> e == Err(Unhandled(r.error))
  {
    match r
    case Ok(s) => Ok(s)
    case Err(err) => Err(Unhandled(err))
  }

  /** `create` with `perform_create`: the required-field check, `validate`, then
      the save with the requester stamped as the owner. */
  function Create(db: Db, today: Date, viewer: Principal, data: S.BookingData): (r: Result<Saved>)
    ensures !data.Complete() ==> r == Err(Required)
    ensures data.Complete() ==> (r.Ok? <==> Admissible(db.bookings, today, None, S.Candidate(viewer.id, data)))
    ensures data.Complete() && r.Err? ==> Clean(db.bookings, today, None, S.Candidate(viewer.id, data)) == Fail(r.error)
    ensures r.Err? ==> !r.error.Unhandled?
    ensures r.Ok? ==> r.value.id == db.nextId && r.value.db.nextId == db.nextId + 1
    ensures data.Complete() && r.Ok? ==> r.value.db.bookings == db.bookings[db.nextId := S.Candidate(viewer.id, data)]
    ensures r.Ok? ==> r.value.id in r.value.db.bookings && r.value.db.bookings[r.value.id].user == viewer.id
  {
    if !data.Complete() then Err(Required)
    else
      match S.Validate(db.bookings, today, viewer.id, None, data)
      case Err(e) => Err(e)
      case Ok(validated) => Escalate(S.Create(db, today, viewer.id, validated))
  }

  /** `update`: look the booking up, run the required-field check unless the
      request is `partial` (PATCH), validate the request data against the
      booking, then overwrite the present fields and save. The serializer's
      user scan is keyed on the requester and `save`'s on the owner, and a
      PATCH may change one time only, so `save` can refuse data `validate`
      accepted: that refusal is `Unhandled`. */
  function Update(db: Db, today: Date, viewer: Principal, pk: BookingId, partial: bool, data: S.BookingData): (r: Result<Saved>)
    ensures !Reachable(db.bookings, viewer, pk) ==> r == Err(NotFound)
    ensures Reachable(db.bookings, viewer, pk) && !partial && !data.Complete() ==> r == Err(Required)
    ensures r.Ok? <==> && Reachable(db.bookings, viewer, pk)
                       && (partial || data.Complete())
                       && S.Validate(db.bookings, today, viewer.id, Some(pk), data).Ok?
                       && Admissible(db.bookings, today, Some(pk), S.Apply(db.bookings[pk], data))
    ensures && Reachable(db.bookings, viewer, pk) && (partial || data.Complete())
            && S.Validate(db.bookings, today, viewer.id, Some(pk), data).Err?
            ==> r == Err(S.Validate(db.bookings, today, viewer.id, Some(pk), data).error)
    ensures && Reachable(db.bookings, viewer, pk) && (partial || data.Complete())
            && S.Validate(db.bookings, today, viewer.id, Some(pk), data).Ok?
            && !Admissible(db.bookings, today, Some(pk), S.Apply(db.bookings[pk], data))
            ==> r == Err(Unhandled(Clean(db.bookings, today, Some(pk), S.Apply(db.bookings[pk], data)).error))
    ensures r.Ok? ==> && pk in db.bookings && r.value.id == pk
                      && r.value.db == Db(db.bookings[pk := S.Apply(db.bookings[pk], data)], db.nextId)
    ensures r.Ok? && data.Complete() ==>
              !Clash(db.bookings, ByUser(viewer.id), data.date.value, data.start.value, data.end.value, Some(pk))
  {
    match GetObject(db.bookings, viewer, pk)
    case Err(e) => Err(e)
    case Ok(_) =>
      if !partial && !data.Complete() then Err(Required)
      else
        match S.Validate(db.bookings, today, viewer.id, Some(pk), data)
        case Err(e) => Err(e)
        case Ok(validated) => Escalate(S.Update(db, today, pk, validated))
  }

  /** `destroy`: look the booking up and delete exactly that row, with no
      further validation. */
  function Destroy(db: Db, viewer: Principal, pk: BookingId): (r: Result<Db>)
    ensures r.Ok? <==> Reachable(db.bookings, viewer, pk)
    ensures r.Ok? ==> r.value == Db(db.bookings - {pk}, db.nextId)
    ensures r.Err? ==> r.error == NotFound
  {
    match GetObject(db.bookings, viewer, pk)
    case Err(e) => Err(e)
    case Ok(_) => Ok(Db(db.bookings - {pk}, db.nextId))
  }

  datatype Action =
    | CreateBooking(data: S.BookingData)
    | UpdateBooking(pk: BookingId, partial: bool, data: S.BookingData)   // PATCH when partial, PUT otherwise
    | DestroyBooking(pk: BookingId)

  /** One request: the current date, the authenticated user and what they ask. */
  datatype Request = Request(today: Date, viewer: Principal, action: Action)

  /** The table after one request; a refused request changes nothing. */
  function Handle(db: Db, req: Request): Db {
    match req.action
    case CreateBooking(data) =>
      (match Create(db, req.today, req.viewer, data) case Ok(s) => s.db case Err(_) => db)
    case UpdateBooking(pk, partial, data) =>
      (match Update(db, req.today, req.viewer, pk, partial, data) case Ok(s) => s.db case Err(_) => db)
    case DestroyBooking(pk) =>
      (match Destroy(db, req.viewer, pk) case Ok(d) => d case Err(_) => db)
  }

  /** The table after a sequence of requests, handled one at a time. */
  function Run(db: Db, reqs: seq<Request>): Db
    decreases |reqs|
  {
    if reqs == [] then db else Run(Handle(db, reqs[0]), reqs[1..])
  }

  lemma HandleKeepsValid(db: Db, req: Request)
    requires Valid(db)
    ensures Valid(Handle(db, req))
  {
    match req.action
    case CreateBooking(data) =>
      if data.Complete() {
        SaveKeepsValid(db, req.today, None, S.Candidate(req.viewer.id, data));
      }
    case UpdateBooking(pk, _, data) =>
      if pk in db.bookings {
        SaveKeepsValid(db, req.today, Some(pk), S.Apply(db.bookings[pk], data));
      }
    case DestroyBooking(pk) =>
      RemoveKeepsValid(db, pk);
  }

  /** After any sequence of requests no two distinct bookings overlap on the
      same room and date or on the same user and date, and every booking ends
      after it starts. */
  lemma {:induction false} RunKeepsValid(db: Db, reqs: seq<Request>)
    requires Valid(db)
    ensures Valid(Run(db, reqs))
    decreases |reqs|
  {
    if reqs != [] {
      HandleKeepsValid(db, reqs[0]);
      RunKeepsValid(Handle(db, reqs[0]), reqs[1..]);
    }
  }

  /** Starting from an empty table, every reachable table is free of double
      bookings. */
  lemma RunFromEmptyIsValid(reqs: seq<Request>)
    ensures NoDoubleBooking(Run(Db(map[], 1), reqs).bookings)
  {
    RunKeepsValid(Db(map[], 1), reqs);
  }

  /** Two creates for overlapping slots of the same room, handled one after the
      other: if the first succeeds the second is refused as a room conflict. */
  lemma SecondOverlappingCreateRejected(db: Db, today: Date, first: Principal, second: Principal,
                                        d1: S.BookingData, d2: S.BookingData)
    requires Valid(db)
    requires d1.Complete() && d2.Complete()
    requires d1.room == d2.room && d1.date == d2.date && d2.end.value > d2.start.value
    requires d1.start.value < d2.end.value && d1.end.value > d2.start.value
    requires Create(db, today, first, d1).Ok?
    ensures Create(Create(db, today, first, d1).value.db, today, second, d2) == Err(RoomTaken)
  {
  }

  /** A user who neither is staff nor owns the booking cannot change or delete it. */
  lemma StrangerCannotTouch(db: Db, today: Date, viewer: Principal, pk: BookingId, partial: bool, data: S.BookingData)
    requires pk in db.bookings && !viewer.isStaff && db.bookings[pk].user != viewer.id
    ensures Handle(db, Request(today, viewer, UpdateBooking(pk, partial, data))) == db
    ensures Handle(db, Request(today, viewer, DestroyBooking(pk))) == db
  {
  }

  /** Room 1 gets a 10:00-11:00 booking on day D: that slot is taken, 14:00-15:00
      is free, and deleting the booking frees 10:00-11:00 again. */
  lemma BookThenDeleteScenario(today: Date, room: RoomId, user: Principal)
    ensures var data := S.BookingData(Some(room), Some(today), Some(600), Some(660));
            var created := Create(Db(map[], 1), today, user, data);
            && created.Ok? && created.value.id == 1
            && !IsAvailable(created.value.db.bookings, room, today, 600, 660)
            && IsAvailable(created.value.db.bookings, room, today, 840, 900)
            && Destroy(created.value.db, user, 1).Ok?
            && IsAvailable(Destroy(created.value.db, user, 1).value.bookings, room, today, 600, 660)
  {
  }

  /** A PATCH that moves only the end time of a 10:00-11:00 booking to 09:00
      passes `validate`, which sees no start time, and is refused by `save`. */
  lemma PartialEndBeforeStartEscapes(today: Date, owner: Principal)
    ensures var db := Db(map[1 := Booking(owner.id, 1, today, 600, 660)], 2);
            var data := S.BookingData(None, None, None, Some(540));
            && S.Validate(db.bookings, today, owner.id, Some(1), data).Ok?
            && Update(db, today, owner, 1, true, data) == Err(Unhandled(EndNotAfterStart))
  {
  }

  /** A PATCH that omits any of room, date, start and end skips `validate`'s
      overlap scans: once the date and time rules pass, only `clean` inside
      `save` judges the result, and its refusal is a server error. */
  lemma PartialSkipsOverlapScans(db: Db, today: Date, viewer: Principal, pk: BookingId, data: S.BookingData)
    requires Reachable(db.bookings, viewer, pk) && !data.Complete()
    requires !S.PastDatePresent(data, today) && !S.TimesOutOfOrder(data)
    ensures S.Validate(db.bookings, today, viewer.id, Some(pk), data).Ok?
    ensures var b := S.Apply(db.bookings[pk], data);
            var u := Update(db, today, viewer, pk, true, data);
            && (u.Ok? <==> Clean(db.bookings, today, Some(pk), b).Pass?)
            && (u.Err? ==> u.error == Unhandled(Clean(db.bookings, today, Some(pk), b).error))
  {
  }

  /** User 2 moves their 10:00-11:00 booking from room 2 to room 1, which user 1
      holds at that time, by a PATCH carrying only the room: `validate` runs no
      scan, and the room conflict surfaces from `save`. */
  lemma PartialRoomMoveEscapes(today: Date)
    ensures var db := Db(map[1 := Booking(1, 1, today, 600, 660), 2 := Booking(2, 2, today, 600, 660)], 3);
            var data := S.BookingData(Some(1), None, None, None);
            && S.Validate(db.bookings, today, 2, Some(2), data).Ok?
            && Update(db, today, Principal(2, false), 2, true, data) == Err(Unhandled(RoomTaken))
  {
    var store := map[1 := Booking(1, 1, today, 600, 660), 2 := Booking(2, 2, today, 600, 660)];
    assert 1 in store && Some(1) != Some(2) && HeldBy(store[1], ByRoom(1));
  }

  /** Staff user 9 moves user 1's 13:00-14:00 booking in room 2 to
      10:30-11:30, where user 1 already holds room 1: `validate`, keyed on
      the staff member, accepts, and `save`, keyed on the owner, refuses. */
  lemma StaffEditOwnerClashEscapes(today: Date)
    ensures var db := Db(map[1 := Booking(1, 1, today, 600, 660), 2 := Booking(1, 2, today, 780, 840)], 3);
            var data := S.BookingData(Some(2), Some(today), Some(630), Some(690));
            && S.Validate(db.bookings, today, 9, Some(2), data).Ok?
            && Update(db, today, Principal(9, true), 2, false, data) == Err(Unhandled(UserTaken))
  {
    var store := map[1 := Booking(1, 1, today, 600, 660), 2 := Booking(1, 2, today, 780, 840)];
    assert forall id :: id in store ==> id == 1 || id == 2;
    assert 1 in store && Some(1) != Some(2) && HeldBy(store[1], ByUser(1));
  }

  /** A PUT must carry every writable field: one without the room is refused
      before `validate` runs, and the table is unchanged. */
  lemma FullUpdateNeedsEveryField(db: Db, today: Date, viewer: Principal, pk: BookingId, data: S.BookingData)
    requires Reachable(db.bookings, viewer, pk) && data.room.None?
    ensures Update(db, today, viewer, pk, false, data) == Err(Required)
    ensures Handle(db, Request(today, viewer, UpdateBooking(pk, false, data))) == db
  {
  }
}

=== FILE: domain.dfy ===
/** The database rows of the bookings and rooms apps, the overlap query both
    apps run against the bookings table, and the invariant the table keeps. */
module Domain {
  import opened Results

  type UserId = int
  type RoomId = int

  /** Auto-increment primary keys start at 1, so the pk of a saved booking is
      never falsy and "the instance has a pk" is exactly `Some?`. */
  type BookingId = x: int | 1 <= x witness 1

  /** A calendar date as a day number. */
  type Date = int

  /** A time of day as minutes after midnight. */
  type Time = int

  datatype Room = Room(id: RoomId, name: string, capacity: int, floor: int)

  datatype Booking = Booking(user: UserId, room: RoomId, date: Date, start: Time, end: Time)

  type Store = map<BookingId, Booking>

  /** The bookings table together with the next value of its id sequence. */
  datatype Db = Db(bookings: Store, nextId: BookingId)

  /** The lookup pair `start_time__lt=end, end_time__gt=start`: the stored
      interval meets [start, end) in more than a boundary point. */
  predicate Overlaps(existing: Booking, start: Time, end: Time) {
    existing.start < end && existing.end > start
  }

  /** The dimension a conflict scan is keyed on: `room=...` or `user=...`. */
  datatype Key = ByRoom(room: RoomId) | ByUser(user: UserId)

  predicate HeldBy(b: Booking, key: Key) {
    match key
    case ByRoom(r) => b.room == r
    case ByUser(u) => b.user == u
  }

  /** Some stored booking other than `exclude` has the same key and date as
      the candidate slot and overlaps it. */
  ghost predicate Clash(store: Store, key: Key, date: Date, start: Time, end: Time, exclude: Option<BookingId>) {
    exists id :: id in store && Some(id) != exclude && HeldBy(store[id], key)
                 && store[id].date == date && store[id].start < end && store[id].end > start
  }

  /** `Booking.objects.filter(<key>, date=date, start_time__lt=end, end_time__gt=start)`,
      followed by `.exclude(pk=p)` when `exclude` is `Some(p)`. */
  function Overlapping(store: Store, key: Key, date: Date, start: Time, end: Time, exclude: Option<BookingId>): (ids: set<BookingId>)
    ensures ids == {} <==> !Clash(store, key, date, start, end, exclude)
  {
    var ids := set id | id in store && Some(id) != exclude && HeldBy(store[id], key)
                        && store[id].date == date && Overlaps(store[id], start, end);
    assert forall id :: (id in store && Some(id) != exclude && HeldBy(store[id], key)
                         && store[id].date == date && Overlaps(store[id], start, end)) ==> id in ids;
    ids
  }

  /** The strict overlap test does not depend on which booking is the stored one. */
  lemma OverlapSymmetric(a: Booking, b: Booking)
    ensures Overlaps(a, b.start, b.end) <==> Overlaps(b, a.start, a.end)
  {
  }

  /** The table's check constraint `end_time_after_start_time`. */
  predicate EndAfterStart(b: Booking) {
    b.end > b.start
  }

  /** No two distinct stored bookings on the same date overlap while sharing a
      room or a user. */
  ghost predicate NoDoubleBooking(store: Store) {
    forall i, j :: i in store && j in store && i != j && store[i].date == store[j].date
                   && Overlaps(store[i], store[j].start, store[j].end)
                   ==> store[i].room != store[j].room && store[i].user != store[j].user
  }

  /** What every reachable state of the bookings table satisfies. */
  ghost predicate Valid(db: Db) {
    && (forall id :: id in db.bookings ==> id < db.nextId && EndAfterStart(db.bookings[id]))
    && NoDoubleBooking(db.bookings)
  }

  /** Deleting a row never breaks the invariant. */
  lemma RemoveKeepsValid(db: Db, pk: BookingId)
    requires Valid(db)
    ensures Valid(Db(db.bookings - {pk}, db.nextId))
  {
  }

  /** A queryset `.filter(...)`: the rows of `qs` that satisfy `p`, in their order. */
  function Keep(qs: seq<Room>, p: Room -> bool): (r: seq<Room>)
    ensures forall x :: x in r <==> x in qs && p(x)
    ensures |r| <= |qs|
  {
    if qs == [] then []
    else
      assert qs == [qs[0]] + qs[1..];
      if p(qs[0]) then [qs[0]] + Keep(qs[1..], p) else Keep(qs[1..], p)
  }

  /** Filtering rows that all pass the condition returns the same queryset. */
  lemma {:induction false} KeepEverything(qs: seq<Room>, p: Room -> bool)
    requires forall x :: x in qs ==> p(x)
    ensures Keep(qs, p) == qs
  {
    if qs != [] {
      assert qs[0] in qs;
      assert forall x :: x in qs[1..] ==> x in qs;
      KeepEverything(qs[1..], p);
      assert qs == [qs[0]] + qs[1..];
    }
  }
}

=== FILE: permissions.dfy ===
/** The two permission classes guarding the room and booking endpoints. */
module Permissions {
  import opened Results
  import opened Domain

  datatype Method = Get | Head | Options | Post | Put | Patch | Delete

  /** `permissions.SAFE_METHODS` */
  predicate IsSafe(m: Method) {
    m == Get || m == Head || m == Options
  }

  /** The authenticated actor of a request. */
  datatype Principal = Principal(id: UserId, isStaff: bool)

  /** `IsAdminUserOrReadOnly.has_permission`: reads for anyone, writes for staff.
      `user` is `None` when the request carries no user object. */
  function HasPermission(m: Method, user: Option<Principal>): (r: bool)
    ensures IsSafe(m) ==> r
    ensures !IsSafe(m) ==> (r <==> user.Some? && user.value.isStaff)
  {
    if IsSafe(m) then true
    else user.Some? && user.value.isStaff
  }

  /** The object a permission is asked about: one with a `user` field, or one without. */
  datatype Target = OwnedBy(owner: UserId) | Unowned

  /** `IsOwnerOrAdmin.has_object_permission`: staff always, otherwise only the
      owner of an object that has one. */
  function HasObjectPermission(user: Option<Principal>, obj: Target): (r: bool)
    ensures user.Some? && user.value.isStaff ==> r
    ensures r <==> user.Some? && (user.value.isStaff || obj == OwnedBy(user.value.id))
    ensures obj.Unowned? ==> (r <==> user.Some? && user.value.isStaff)
  {
    if user.Some? && user.value.isStaff then true
    else if obj.OwnedBy? then user.Some? && obj.owner == user.value.id
    else false
  }
}

=== FILE: results.dfy ===
/** Failure-carrying values shared by every layer of the booking backend:
    optional values, field-tagged validation errors and results. */
module Results {

  datatype Option<+T> = None | Some(value: T)

  /** The key a validation error carries: the request field it is about, or
      `non_field_errors` for the rules about the booking as a whole. */
  datatype FieldTag =
    | DateField        // 'date'
    | EndTimeField     // 'end_time'
    | NonFieldErrors   // 'non_field_errors'
    | FloorField       // 'floor'
    | CapacityField    // 'capacity'

  /** Why an operation was refused. On the request path, `Invalid`,
      `Required`, `NotFound` and `PermissionDenied` become client errors;
      `Unhandled` wraps a model-level refusal raised inside `save`, which the
      framework's exception handler does not convert, so the request fails as
      a server error instead of a field-tagged response. */
  datatype Error =
    | Invalid(field: FieldTag, message: string)   // a raised ValidationError
    | Required                                    // a required writable field is missing (400)
    | NotFound                                    // lookup through the visible queryset failed (404)
    | PermissionDenied                            // an object permission refused (403)
    | IntegrityError                              // the database check constraint refused the row
    | Unhandled(cause: Error)                     // a Django ValidationError escaping the view (500)

  datatype Result<+T> = Ok(value: T) | Err(error: Error)

  /** The outcome of a validation hook that returns nothing or raises. */
  datatype Check = Pass | Fail(error: Error)
}

=== FILE: room_filters.dfy ===
/** `RoomFilter`: the filter set applied to the room list, with an exact floor
    filter, a minimum-capacity filter and an availability filter driven by the
    date parameter. */
module RoomFilters {
  import opened Results
  import opened Domain
  import opened RoomModel

  /** `filter_ignored`: the start and end times are read by the availability
      filter, so their own filters leave the queryset alone. */
  function FilterIgnored(qs: seq<Room>, name: string, value: Time): (r: seq<Room>)
    ensures r == qs
  {
    qs
  }

  /** `filter_availability`, called with the parsed date as `value` and the
      raw start and end times of the request. */
  function FilterAvailability(qs: seq<Room>, store: Store, value: Option<Date>, start: Option<Time>, end: Option<Time>): (r: seq<Room>)
    ensures forall x :: x in r ==> x in qs
    ensures value.None? || start.None? || end.None? ==> r == qs
    ensures value.Some? && start.Some? && end.Some? ==>
              forall x :: x in r <==> x in qs && IsAvailable(store, x.id, value.value, start.value, end.value)
  {
    if value.None? || start.None? || end.None? then qs
    else AvailableAmong(qs, store, value.value, start.value, end.value)
  }

  /** The filter set run over `qs`, each declared filter in turn; a filter whose
      parameter is missing is skipped. */
  function FilterQueryset(qs: seq<Room>, store: Store, p: Params): (r: seq<Room>)
    ensures forall x :: x in r <==> && x in qs
                                    && (p.floor.Some? ==> x.floor == p.floor.value)
                                    && (p.capacity.Some? ==> x.capacity >= p.capacity.value)
                                    && (p.HasSlot() ==> IsAvailable(store, x.id, p.date.value, p.start.value, p.end.value))
  {
    var byFloor := if p.floor.Some? then WithFloor(qs, p.floor.value) else qs;
    var byCapacity := if p.capacity.Some? then WithMinCapacity(byFloor, p.capacity.value) else byFloor;
    var byDate := if p.date.Some? then FilterAvailability(byCapacity, store, p.date, p.start, p.end) else byCapacity;
    var byStart := if p.start.Some? then FilterIgnored(byDate, "start_time", p.start.value) else byDate;
    if p.end.Some? then FilterIgnored(byStart, "end_time", p.end.value) else byStart
  }
}

=== FILE: room_model.dfy ===
/** The Room model: its availability query and the queryset lookups the room
    endpoints build on it. */
module RoomModel {
  import opened Results
  import opened Domain

  /** `Room.is_available`: no booking of `room` on `date` overlaps [start, end).
      Ordering of start and end is the caller's business; nothing is checked. */
  function IsAvailable(store: Store, room: RoomId, date: Date, start: Time, end: Time): (r: bool)
    ensures r <==> forall id :: id in store && store[id].room == room && store[id].date == date
                                ==> !(store[id].start < end && store[id].end > start)
  {
    Overlapping(store, ByRoom(room), date, start, end, None) == {}
  }

  /** With no bookings for the room on that date, every slot is free. */
  lemma EmptyRoomIsAvailable(store: Store, room: RoomId, date: Date, start: Time, end: Time)
    requires forall id :: id in store ==> store[id].room != room || store[id].date != date
    ensures IsAvailable(store, room, date, start, end)
  {
  }

  /** Adding a booking for another room or another date never changes the answer. */
  lemma OtherBookingsIrrelevant(store: Store, k: BookingId, b: Booking, room: RoomId, date: Date, start: Time, end: Time)
    requires k !in store
    requires b.room != room || b.date != date
    ensures IsAvailable(store[k := b], room, date, start, end) == IsAvailable(store, room, date, start, end)
  {
  }

  /** A slot that contains a stored booking of the room, or overlaps it at
      either end, is not available. */
  lemma OverlappedSlotUnavailable(store: Store, k: BookingId, date: Date, start: Time, end: Time)
    requires k in store && store[k].date == date && start < end && EndAfterStart(store[k])
    requires || (start <= store[k].start && store[k].end <= end)          // contains it
             || (start < store[k].start && store[k].start < end)          // runs into its start
             || (start < store[k].end && store[k].end < end)              // runs past its end
             || (store[k].start <= start && end <= store[k].end)          // lies inside it
    ensures !IsAvailable(store, store[k].room, date, start, end)
  {
  }

  /** A slot touching a stored booking only at a boundary is not blocked by it. */
  lemma BackToBackIsAvailable(store: Store, k: BookingId, start: Time, end: Time)
    requires k in store
    requires forall id :: id in store && id != k ==> store[id].room != store[k].room || store[id].date != store[k].date
    requires start == store[k].end || end == store[k].start
    requires start < end && EndAfterStart(store[k])
    ensures IsAvailable(store, store[k].room, store[k].date, start, end)
  {
  }

  /** Query-string parameters of the room endpoints; `None` stands for a
      missing or empty parameter. */
  datatype Params = Params(date: Option<Date>, start: Option<Time>, end: Option<Time>,
                           floor: Option<int>, capacity: Option<int>)
  {
    /** `all([date, start_time, end_time])` */
    predicate HasSlot() {
      date.Some? && start.Some? && end.Some?
    }
  }

  /** `queryset.filter(floor=floor)` */
  function WithFloor(qs: seq<Room>, floor: int): (r: seq<Room>)
    ensures forall x :: x in r <==> x in qs && x.floor == floor
  {
    Keep(qs, (x: Room) => x.floor == floor)
  }

  /** `queryset.filter(capacity__gte=capacity)` */
  function WithMinCapacity(qs: seq<Room>, capacity: int): (r: seq<Room>)
    ensures forall x :: x in r <==> x in qs && x.capacity >= capacity
  {
    Keep(qs, (x: Room) => x.capacity >= capacity)
  }

  /** The rooms of `qs` free for the slot: the loop over the queryset calling
      `is_available`, then `queryset.filter(id__in=available_rooms)`. */
  function AvailableAmong(qs: seq<Room>, store: Store, date: Date, start: Time, end: Time): (r: seq<Room>)
    ensures forall x :: x in r <==> x in qs && IsAvailable(store, x.id, date, start, end)
  {
    Keep(qs, (x: Room) => IsAvailable(store, x.id, date, start, end))
  }
}

=== FILE: room_serializers.dfy ===
/** The room serializers: field validation of incoming room data and the
    computed `is_available` field of the detail view. */
module RoomSerializers {
  import opened Results
  import opened Domain
  import opened RoomModel

  /** Incoming room fields; `None` for a field absent from the request data. */
  datatype RoomData = RoomData(name: Option<string>, capacity: Option<int>, floor: Option<int>)

  const FloorError := Invalid(FloorField, "Floor must be a positive number.")
  const CapacityError := Invalid(CapacityField, "Capacity must be a positive number.")

  /** `data.get(field, 0)` */
  function OrZero(v: Option<int>): int {
    if v.Some? then v.value else 0
  }

  /** `RoomSerializer.validate`: floor, then capacity, must be positive; an
      absent field reads as 0 and is refused. */
  function Validate(data: RoomData): (r: Result<RoomData>)
    ensures r.Ok? <==> data.floor.Some? && data.floor.value > 0 && data.capacity.Some? && data.capacity.value > 0
    ensures r.Ok? ==> r.value == data
    ensures data.floor.None? || data.floor.value <= 0 ==> r == Err(FloorError)
    ensures data.floor.Some? && data.floor.value > 0 && (data.capacity.None? || data.capacity.value <= 0)
            ==> r == Err(CapacityError)
  {
    if OrZero(data.floor) <= 0 then Err(FloorError)
    else if OrZero(data.capacity) <= 0 then Err(CapacityError)
    else Ok(data)
  }

  /** What the serializer context holds: no request, a request object without
      query parameters, or a request with the slot parameters it carries. */
  datatype Context = NoRequest | NoQueryParams | Query(params: Params)

  /** `RoomDetailSerializer.get_is_available`: with a full slot in the query,
      whether the room is free for it; otherwise true. */
  function GetIsAvailable(ctx: Context, store: Store, room: Room): (r: bool)
    ensures ctx.NoRequest? || ctx.NoQueryParams? ==> r
    ensures ctx.Query? && !ctx.params.HasSlot() ==> r
    ensures !r <==> (&& ctx.Query? && ctx.params.HasSlot()
                     && exists id :: id in store && store[id].room == room.id && store[id].date == ctx.params.date.value
                                     && store[id].start < ctx.params.end.value && store[id].end > ctx.params.start.value)
  {
    match ctx
    case NoRequest => true
    case NoQueryParams => true
    case Query(p) =>
      if !p.HasSlot() then true
      else IsAvailable(store, room.id, p.date.value, p.start.value, p.end.value)
  }
}

=== FILE: room_views.dfy ===
/** `RoomViewSet`: the room list pipeline (floor, capacity, availability) and
    how its result relates to the filter set and the detail serializer. */
module RoomViews {
  import opened Results
  import opened Domain
  import opened RoomModel
  import opened RoomFilters
  import opened RoomSerializers

  /** `RoomViewSet.get_queryset` over the room table `rooms`. */
  function GetQueryset(rooms: seq<Room>, store: Store, p: Params): (r: seq<Room>)
    ensures forall x :: x in r <==> && x in rooms
                                    && (p.floor.Some? ==> x.floor == p.floor.value)
                                    && (p.capacity.Some? ==> x.capacity >= p.capacity.value)
                                    && (p.HasSlot() ==> IsAvailable(store, x.id, p.date.value, p.start.value, p.end.value))
    ensures |r| <= |rooms|
  {
    var byFloor := if p.floor.Some? then WithFloor(rooms, p.floor.value) else rooms;
    var byCapacity := if p.capacity.Some? then WithMinCapacity(byFloor, p.capacity.value) else byFloor;
    if p.HasSlot() then AvailableAmong(byCapacity, store, p.date.value, p.start.value, p.end.value)
    else byCapacity
  }

  /** The loop of `get_queryset` collecting `available_rooms`: the ids of
      the rooms of `qs` that are free for the slot. */
  method AvailableRoomIds(qs: seq<Room>, store: Store, date: Date, start: Time, end: Time) returns (ids: seq<RoomId>)
    ensures forall id :: id in ids <==> exists x :: x in qs && x.id == id && IsAvailable(store, id, date, start, end)
  {
    ids := [];
    var i := 0;
    while i < |qs|
      invariant 0 <= i <= |qs|
      invariant forall id :: id in ids <==> exists k :: 0 <= k < i && qs[k].id == id && IsAvailable(store, id, date, start, end)
    {
      if IsAvailable(store, qs[i].id, date, start, end) {
        ids := ids + [qs[i].id];
      }
      i := i + 1;
    }
    forall id | id in ids ensures exists x :: x in qs && x.id == id && IsAvailable(store, id, date, start, end) {
      var k :| 0 <= k < |qs| && qs[k].id == id && IsAvailable(store, id, date, start, end);
      assert qs[k] in qs;
    }
    forall id | exists x :: x in qs && x.id == id && IsAvailable(store, id, date, start, end) ensures id in ids {
      var x :| x in qs && x.id == id && IsAvailable(store, id, date, start, end);
      var k :| 0 <= k < |qs| && qs[k] == x;
    }
  }

  /** `queryset.filter(id__in=available_rooms)` keeps exactly the rooms that
      `AvailableAmong` describes. */
  lemma AvailableIdsSelectAvailableRooms(qs: seq<Room>, store: Store, date: Date, start: Time, end: Time, ids: seq<RoomId>)
    requires forall id :: id in ids <==> exists x :: x in qs && x.id == id && IsAvailable(store, id, date, start, end)
    ensures Keep(qs, (x: Room) => x.id in ids) == AvailableAmong(qs, store, date, start, end)
  {
    KeepSameCondition(qs, (x: Room) => x.id in ids, (x: Room) => IsAvailable(store, x.id, date, start, end));
  }

  /** Two conditions that agree on every row of `qs` keep the same rows, in
      the same order. */
  lemma {:induction false} KeepSameCondition(qs: seq<Room>, p: Room -> bool, q: Room -> bool)
    requires forall x :: x in qs ==> p(x) == q(x)
    ensures Keep(qs, p) == Keep(qs, q)
  {
    if qs != [] {
      assert qs[0] in qs;
      assert forall x :: x in qs[1..] ==> x in qs;
      KeepSameCondition(qs[1..], p, q);
    }
  }

  /** The list endpoint: `get_queryset` and then the `RoomFilter` filter set.
      The filter set re-applies the same conditions, so it removes nothing. */
  function List(rooms: seq<Room>, store: Store, p: Params): (r: seq<Room>)
    ensures r == GetQueryset(rooms, store, p)
  {
    var qs := GetQueryset(rooms, store, p);
    FilterSetKeepsQueryset(qs, rooms, store, p);
    FilterQueryset(qs, store, p)
  }

  lemma FilterSetKeepsQueryset(qs: seq<Room>, rooms: seq<Room>, store: Store, p: Params)
    requires qs == GetQueryset(rooms, store, p)
    ensures FilterQueryset(qs, store, p) == qs
  {
    var byFloor := if p.floor.Some? then WithFloor(qs, p.floor.value) else qs;
    if p.floor.Some? {
      KeepEverything(qs, (x: Room) => x.floor == p.floor.value);
    }
    assert byFloor == qs;
    var byCapacity := if p.capacity.Some? then WithMinCapacity(byFloor, p.capacity.value) else byFloor;
    if p.capacity.Some? {
      KeepEverything(qs, (x: Room) => x.capacity >= p.capacity.value);
    }
    assert byCapacity == qs;
    if p.HasSlot() {
      KeepEverything(qs, (x: Room) => IsAvailable(store, x.id, p.date.value, p.start.value, p.end.value));
    }
  }

  /** With no parameters every room is listed. */
  lemma NoParamsListsEveryRoom(rooms: seq<Room>, store: Store)
    ensures List(rooms, store, Params(None, None, None, None, None)) == rooms
  {
  }

  /** Deleting the only booking that blocks a room for the requested slot
      brings the room back into the availability listing. */
  lemma DeletingBlockerRestoresRoom(rooms: seq<Room>, store: Store, p: Params, room: Room, k: BookingId)
    requires p.HasSlot()
    requires room in rooms
    requires p.floor.Some? ==> room.floor == p.floor.value
    requires p.capacity.Some? ==> room.capacity >= p.capacity.value
    requires k in store && store[k].room == room.id && store[k].date == p.date.value
    requires store[k].start < p.end.value && store[k].end > p.start.value
    requires forall id :: id in store && id != k && store[id].room == room.id && store[id].date == p.date.value
                          ==> !Overlaps(store[id], p.start.value, p.end.value)
    ensures room !in List(rooms, store, p)
    ensures room in List(rooms, store - {k}, p)
  {
  }

  /** The detail serializer's `is_available`, computed for a room of the
      table, agrees with membership in the availability listing for the same
      slot. */
  lemma DetailAgreesWithListing(rooms: seq<Room>, store: Store, p: Params, room: Room)
    requires room in rooms && p.HasSlot() && p.floor.None? && p.capacity.None?
    ensures GetIsAvailable(Query(p), store, room) <==> room in List(rooms, store, p)
  {
  }

  /** The first row of `qs` whose id is `id`: the primary-key lookup. */
  function FindById(qs: seq<Room>, id: RoomId): (r: Option<Room>)
    ensures r.Some? <==> exists x :: x in qs && x.id == id
    ensures r.Some? ==> r.value in qs && r.value.id == id
  {
    if qs == [] then None
    else if qs[0].id == id then Some(qs[0])
    else
      var rest := FindById(qs[1..], id);
      assert forall x :: x in qs[1..] ==> x in qs;
      assert forall x :: x in qs && x != qs[0] ==> x in qs[1..];
      rest
  }

  /** A room as the detail endpoint returns it. */
  datatype Detail = Detail(room: Room, isAvailable: bool)

  /** `retrieve`: `get_object` looks the id up in the filtered list, not in
      the whole table, and the detail serializer adds `is_available` for the
      slot in the query. A room the list leaves out is not found, so the
      endpoint never serves `is_available` false. */
  function Retrieve(rooms: seq<Room>, store: Store, p: Params, id: RoomId): (r: Result<Detail>)
    ensures r.Ok? <==> exists x :: x in List(rooms, store, p) && x.id == id
    ensures r.Ok? ==> r.value.room in List(rooms, store, p) && r.value.room.id == id
    ensures r.Ok? ==> r.value.isAvailable
    ensures r.Err? ==> r.error == NotFound
  {
    match FindById(List(rooms, store, p), id)
    case None => Err(NotFound)
    case Some(room) => Ok(Detail(room, GetIsAvailable(Query(p), store, room)))
  }

  /** With a full slot, a room of the table that is booked for it is not
      found by the detail endpoint, whatever the floor and capacity filters. */
  lemma BookedRoomDetailNotFound(rooms: seq<Room>, store: Store, p: Params, room: Room)
    requires room in rooms && p.HasSlot()
    requires forall x :: x in rooms && x.id == room.id ==> x == room
    requires !IsAvailable(store, room.id, p.date.value, p.start.value, p.end.value)
    ensures Retrieve(rooms, store, p, room.id) == Err(NotFound)
  {
  }
}
